=== FILE: README.md ===
# Gamepad mapper — a Dafny model of its event translator and controller

The gamepad mapper polls one gamepad and turns its raw events into keyboard presses. The
mapping from buttons to keys comes from a JSON config. This project models the part of
`gamepad_mapper.py` that has logic:

- **Translator** (`translator.dfy`). The body of the event loop in `run_gamepad_loop`,
  written as a pure step function `Translator.Step`. It takes the session state (the keys
  of `button_states` and the two trigger flags) and one raw event. It returns the new state
  and the logical names emitted. `Translator.Run` folds it over an event sequence, which
  gives the behaviour of one session. `TranslatorProperties` states what a session does:
  - a raw button fires only on its first press of a session: any later press or release
    of it is silent, whatever events come between;
  - triggers fire on the rising edge;
  - D-pad axes fire on every event;
  - ignored events change nothing.
- **Button table** (`buttons.dfy`). `get_button_name`, from raw id to logical name.
- **Dispatch** (`dispatcher.dfy`). The lookup in `handle_button_press`, from an emitted
  name to the mapped action string, if there is one.
- **Keys** (`keys.dfy`). `get_key_from_string`, from an action string to a named key or
  to literal text.
- **Discovery** (`discovery.dfy`). The selection rule of `detect_gamepad`, over the names
  of the connected devices.
- **Controller** (`controller.dfy`). The decisions of `start` and `run_gamepad_loop`, as a
  lifecycle machine with the phases `Discovering`, `Active(device)` and `Stopped`.
- **Config** (`config.dfy`). The config as a record of optional fields, the getters that
  apply the code's defaults, the default-config constant, and the outcome of `load_config`.

Axis values and the trigger threshold are Dafny `real`s. Device names and action strings
are `string`s.

The model follows the code. Where the code and a natural reading of its comments disagree,
the code wins:

- **Debounce by key membership.** A button-down checks whether the name is a key of
  `button_states` (line 156). A button-up stores `False` and does not delete the key
  (line 163). So a raw button fires only if no earlier event of the session pressed or
  released it (`TranslatorProperties.LaterEdgeIsSilent`). A name that only raw buttons
  emit therefore fires at most once per session. LEFT_TRIGGER and RIGHT_TRIGGER can fire
  again, from the trigger axes. The sequence down, down,
  up, down on button 0 types one space, not two (`TranslatorProperties.DebounceExample`).
  A release before any press silences the button for the whole session.
- **Device index 0 is never serviced.** `if not self.gamepad` treats index 0 as absent
  (line 136). The controller then detects again without translating any event. A single
  connected controller is always at index 0, so it is never serviced
  (`Controller.IndexZeroNeverServiced`, `Controller.LoneControllerNeverServiced`).
- **Device loss is not detected.** The event loop runs until `running` is cleared. Once a
  session has started, only an interrupt ends it, provided the polling rate is positive
  (see "## Left out"). Nothing returns the controller to discovery.
- **Shared trigger names.** Raw button 4 and trigger axis 2 both emit `LEFT_TRIGGER`, and
  button 5 and axis 3 both emit `RIGHT_TRIGGER`. Their debounce states are separate: the
  buttons use `button_states`, the axes use the trigger flags.

## Model

| member | source | states |
|---|---|---|
| Buttons.ButtonName | gamepad_mapper.py:195-210 | a raw id has a logical name exactly when it is 0..9, and never a D-pad name |
| Buttons.ButtonIdRoundTrip | gamepad_mapper.py:198-209 | the id table is a bijection between ids 0..9 and the ten non-D-pad buttons (A, B, X, Y, LEFT_TRIGGER, RIGHT_TRIGGER, SELECT, START, LEFT_STICK, RIGHT_STICK) |
| Buttons.NameInjective | gamepad_mapper.py:129-130 | distinct logical buttons are looked up under distinct mapping keys |
| Keys.KeyFromString | gamepad_mapper.py:90-115 | a string outside the twenty-entry table passes through unchanged as literal text; a literal result is the input itself, or " " for "space" |
| Keys.NamedKeyRoundTrip | gamepad_mapper.py:92-113 | a string resolves to a named key exactly when it is that key's table name |
| Keys.SpaceSpellings | gamepad_mapper.py:93 | exactly "space" and a literal " " type a single space |
| MapperConfig.LoadConfig | gamepad_mapper.py:30-61 | a missing file gives a config with a mapping, threshold 0.5, rate 60 and auto_restart true (what that mapping maps is stated by `Dispatcher.DefaultMapsAllButSticks` and `Dispatcher.DefaultKeys`); a malformed file gives `{}`; a parsed file is returned as is |
| MapperConfig.Mappings | gamepad_mapper.py:129 | an absent `button_mappings` reads as the empty mapping |
| MapperConfig.Threshold | gamepad_mapper.py:169 | an absent trigger threshold reads as 0.5 |
| MapperConfig.PollingRate | gamepad_mapper.py:193 | an absent polling rate reads as 60 |
| MapperConfig.AutoRestart | gamepad_mapper.py:227 | an absent `auto_restart` reads as true |
| MapperConfig.AbsentKeysMatchDefaultFile | gamepad_mapper.py:34-61 | the fall-backs for absent keys equal the default file's values, so a missing file and a malformed one differ only in that the malformed one maps nothing |
| Dispatcher.Lookup | gamepad_mapper.py:129-130 | an emitted name yields no action exactly when the document has no `button_mappings` or the name is not one of its keys; otherwise it yields the string the document maps the name to |
| Dispatcher.Dispatch | gamepad_mapper.py:119-132 | a key is pressed for a name exactly when the name is mapped; it is the named key `k` exactly when the mapped string is `k`'s table name; a mapped "space" types a single space; a mapped string outside the key table is handed on as literal text |
| Dispatcher.DispatchAll | gamepad_mapper.py:127-132 | a sequence of emissions presses at most one key each |
| Dispatcher.DispatchOne | gamepad_mapper.py:127-132 | one emitted name presses exactly its dispatched key, or nothing when unmapped; with `DispatchAllAppend` this fixes the keys pressed, in order, for every sequence of names |
| Dispatcher.DispatchAllAppend | gamepad_mapper.py:127-132 | dispatching is sequential: a concatenation presses the keys of each part in turn |
| Dispatcher.NothingPressedIffAllUnmapped | gamepad_mapper.py:129 | no key is pressed exactly when no emitted name is mapped (unmapped names are silent no-ops) |
| Dispatcher.NoMappingsPressNothing | gamepad_mapper.py:59-61 | without `button_mappings`, the `{}` of a malformed file included, nothing is pressed |
| Dispatcher.DefaultMapsAllButSticks | gamepad_mapper.py:32-48 | the config created for a missing file maps every logical button except LEFT_STICK and RIGHT_STICK |
| Dispatcher.DefaultKeys | gamepad_mapper.py:32-48 | under the config created for a missing file only A types literal text (a space); every other mapped button presses a named key |
| Translator.TriggerStep | gamepad_mapper.py:167-176 | a trigger fires exactly when the value's magnitude exceeds the threshold and its flag was clear; the flag ends up set exactly when the magnitude exceeds the threshold; the other flag and `button_states` are untouched |
| Translator.Step | gamepad_mapper.py:152-191 | one event emits at most one name; `button_states` only gains keys; only button events touch it and only trigger axes touch the flags; an unknown id changes nothing; a down fires its name exactly when the name was not yet a key; an up records the name without firing |
| Translator.Run | gamepad_mapper.py:152-153 | over an event sequence `button_states` only gains keys and at most one name is emitted per event |
| TranslatorProperties.RunAppend | gamepad_mapper.py:152-153 | events are processed in arrival order: a concatenation runs its second part from the state the first left |
| TranslatorProperties.KeyedIffTouched | gamepad_mapper.py:154-163 | a name becomes a key of `button_states` exactly when a press or a release naming it arrives |
| TranslatorProperties.StepFiresOnlyOnFirstPress | gamepad_mapper.py:154-163 | for a name that only raw buttons emit (A, B, X, Y, SELECT, START, LEFT_STICK, RIGHT_STICK), one event fires it exactly when it presses that button while the name is not a key |
| TranslatorProperties.ButtonFiresOnlyOnFirstPress | gamepad_mapper.py:154-163 | for a name that only raw buttons emit (A, B, X, Y, SELECT, START, LEFT_STICK, RIGHT_STICK), over any event sequence it fires at most once, and exactly once when it was not yet a key and the first event naming it is a press; LEFT_TRIGGER and RIGHT_TRIGGER are excluded because the trigger axes emit them too |
| TranslatorProperties.LaterEdgeIsSilent | gamepad_mapper.py:154-163 | for all ten raw buttons, once a press or release of a button has arrived, any later press or release of it fires nothing, whatever events come in between |
| TranslatorProperties.KeyedButtonStaysSilent | gamepad_mapper.py:154-163 | once a name is a key of `button_states`, any later press or release of its button fires nothing, whatever events come before it |
| TranslatorProperties.DebounceExample | gamepad_mapper.py:148-163 | with A mapped to "space", down, down, up, down on button 0 types exactly one space |
| TranslatorProperties.ConfiguredThresholdGovernsTriggers | gamepad_mapper.py:169-176 | a `trigger_threshold` present in the document is the one the trigger axes use: a trigger fires exactly when the value's magnitude exceeds it and the flag was clear, and the flag ends set exactly when the magnitude exceeds it |
| TranslatorProperties.SustainedTriggerFiresOnce | gamepad_mapper.py:167-176 | a run of above-threshold values on one trigger axis fires that trigger once (none if its flag was already set), leaves the flag set and leaves `button_states` alone |
| TranslatorProperties.TriggerExample | gamepad_mapper.py:167-176 | threshold 0.5 and axis-2 values 0.6, 0.7, 0.3, 0.6 emit LEFT_TRIGGER twice |
| TranslatorProperties.DpadFiresOnEveryEvent | gamepad_mapper.py:179-191 | every axis-0/1 event past 0.5 in magnitude fires the direction given by axis and sign, with no debounce, and changes no state |
| TranslatorProperties.DpadExample | gamepad_mapper.py:179-191 | axis-0 values 0.9, 0.9 emit DPAD_RIGHT twice |
| TranslatorProperties.IgnoredEventsChangeNothing | gamepad_mapper.py:152-191 | unknown ids, D-pad values within 0.5, axes other than 0-3 and unhandled event types change nothing and emit nothing |
| TranslatorProperties.OnlyKeysMatter | gamepad_mapper.py:149-163 | translation depends only on which names are keys of `button_states`, never on the stored booleans |
| TranslatorProperties.UnmappedSessionPressesNothing | gamepad_mapper.py:129-132 | a session under a config without `button_mappings` presses no key, whatever the events |
| Discovery.ToLower | gamepad_mapper.py:81 | lower-casing keeps the length, leaves no ASCII capital, keeps every other character, and turns each capital into its small letter |
| Discovery.ToLowerIdempotent | gamepad_mapper.py:81 | lower-casing twice is lower-casing once |
| Discovery.MatchIgnoresCase | gamepad_mapper.py:81-84 | a name and its lower-cased form are recognised alike |
| Discovery.FirstMatchFrom | gamepad_mapper.py:78-86 | the scan from index `i` returns the least index at or after `i` whose name is a gamepad name, and none exactly when there is no such index |
| Discovery.DetectGamepad | gamepad_mapper.py:76-88 | the result is the least index whose lower-cased name contains one of the five keywords; it is none exactly when no name matches, including when there are no devices |
| Discovery.NameExamples | gamepad_mapper.py:84 | "Xbox Wireless Controller" is recognised and "Mouse" is not |
| Controller.AfterDetection | gamepad_mapper.py:218-228 | a detection stops the controller exactly when nothing was found and `auto_restart` is false; it enters a session exactly when a nonzero index was found, for that index |
| Controller.ControllerStep | gamepad_mapper.py:134-152 | stopping is terminal; an interrupt stops; only a polled batch during a session presses keys; a session is left only by an interrupt; every session starts from the fresh state |
| Controller.ControllerRun | gamepad_mapper.py:216-228 | once stopped, the controller stays stopped and presses nothing |
| Controller.FailedDetectionStopsIffNoRestart | gamepad_mapper.py:223-228 | after a detection over device names none of which is a gamepad name, the controller stops exactly when the config sets `auto_restart` to false; absent, it retries |
| Controller.RestartingNeverStops | gamepad_mapper.py:216-228 | with `auto_restart` on, only an interrupt ever stops the controller |
| Controller.IndexZeroNeverServiced | gamepad_mapper.py:134-137 | if at every detection the first device is a gamepad or no device is, no session starts and no key is pressed, so a gamepad at index 0 is re-detected forever |
| Controller.LoneControllerNeverServiced | gamepad_mapper.py:134-137 | with "Xbox Wireless Controller" as the only device, a detection leaves the controller discovering, with its state unchanged and nothing pressed |
| Controller.ActiveRunIsTranslation | gamepad_mapper.py:148-153 | during a session, the controller's state and presses are the translator run over every polled event in order, dispatched |
| Controller.ConnectStartsFreshSession | gamepad_mapper.py:148-150 | after a detection whose first gamepad is at a nonzero index, the keys pressed are exactly those of a fresh session over the polled events, whatever state came before |
| Controller.NoDeviceNoRestartExample | gamepad_mapper.py:223-228 | right after `start`, with no device and `auto_restart` false, the controller stops after one attempt |

## Left out

- Device library: initialising pygame, enumerating joysticks, `joystick.init()` and
  `pygame.event.get()` belong to a foreign library. The device list is a sequence of names
  and the events are an input sequence. `pygame.event.get()` does not filter by device, so
  the events of every connected joystick reach the translator. The model takes whatever
  event sequence it is given.
- Key injection: `press_key` calls pynput's `press`/`release` with a 50 ms sleep between
  them (lines 117-125). This is foreign injection and timing. A dispatch ends at the
  resolved `KeyPress`.
- File I/O: `load_config` and `save_config` read and write JSON files. The model keeps the
  default-config constant and the three load outcomes: missing, malformed, parsed. So
  whether a saved config reads back unchanged is not modelled either.
- Lifecycle and console: `print` output, the polling sleep of `1/polling_rate`, the 2 s
  back-off sleep, `stop()`/`pygame.quit()` and the `KeyboardInterrupt` handling in `main`
  are I/O, timing and process lifecycle. An interrupt is an `Interrupt` input.
- MapperConfig.PollingRate: the rate is only used for the sleep, so the model assumes
  a positive rate. A `polling_rate` of 0 raises a division by zero at line 193, and a
  negative one makes `time.sleep` raise. `main` catches only `KeyboardInterrupt`
  (line 244), so either error ends the process after the first polled batch.
- Controller.ControllerStep: says a session is left only by an interrupt. That holds only
  for a positive `polling_rate`; with a rate of 0 or less, the error at line 193 ends the
  process after the first batch.
- JSON values of other types: a non-boolean `auto_restart` (read by truthiness), a
  non-numeric threshold, or a top-level document that is not an object. The model gives
  each field its intended type.
- Floating point: axis values and thresholds are exact reals, compared with `>`, `<` and
  absolute value only.
- Discovery.ToLower: covers ASCII letters only. Python's `str.lower` also lower-cases
  non-ASCII letters.
- Controller.ControllerStep: an input the current phase does not consume leaves the
  controller unchanged. Examples are a detection result during a session, or a batch of
  events while discovering. This is how the model feeds the environment in; the source has
  no such case.
- The unused `threading`, `subprocess` and `keyboard` imports have no behaviour.

=== FILE: buttons.dfy ===
/** Logical button names and the fixed table from raw button ids to them. */
module Buttons {
  import opened Wrappers

  /** Every name the translator can emit: ten raw buttons plus the four D-pad directions. */
  datatype LogicalButton =
    | A | B | X | Y
    | LeftTrigger | RightTrigger
    | Select | Start
    | LeftStick | RightStick
    | DpadUp | DpadDown | DpadLeft | DpadRight

  /** The string under which a logical button appears as a key of `button_mappings`. */
  function Name(b: LogicalButton): string {
    match b
    case A => "A"
    case B => "B"
    case X => "X"
    case Y => "Y"
    case LeftTrigger => "LEFT_TRIGGER"
    case RightTrigger => "RIGHT_TRIGGER"
    case Select => "SELECT"
    case Start => "START"
    case LeftStick => "LEFT_STICK"
    case RightStick => "RIGHT_STICK"
    case DpadUp => "DPAD_UP"
    case DpadDown => "DPAD_DOWN"
    case DpadLeft => "DPAD_LEFT"
    case DpadRight => "DPAD_RIGHT"
  }

  /** Distinct logical buttons are looked up under distinct mapping keys. */
  lemma NameInjective(a: LogicalButton, b: LogicalButton)
    ensures Name(a) == Name(b) <==> a == b
  {
  }

  /** The raw-id table of `get_button_name`. */
  const IdTable: map<int, LogicalButton> :=
    map[0 := A, 1 := B, 2 := X, 3 := Y, 4 := LeftTrigger, 5 := RightTrigger,
        6 := Select, 7 := Start, 8 := LeftStick, 9 := RightStick]

  /** `get_button_name`: a raw button id to its logical name, `None` for ids outside the table. */
  function ButtonName(id: int): (r: Option<LogicalButton>)
    ensures r.Some? <==> 0 <= id <= 9
    ensures r.Some? ==> !r.value.DpadUp? && !r.value.DpadDown? && !r.value.DpadLeft? && !r.value.DpadRight?
  {
    if id in IdTable then Some(IdTable[id]) else None
  }

  /** The raw id that reports a logical button; the D-pad directions have none (they come from axes). */
  function ButtonId(b: LogicalButton): Option<int> {
    match b
    case A => Some(0)
    case B => Some(1)
    case X => Some(2)
    case Y => Some(3)
    case LeftTrigger => Some(4)
    case RightTrigger => Some(5)
    case Select => Some(6)
    case Start => Some(7)
    case LeftStick => Some(8)
    case RightStick => Some(9)
    case _ => None
  }

  /** The id table is a bijection between ids 0..9 and the ten non-D-pad buttons. */
  lemma ButtonIdRoundTrip(id: int, b: LogicalButton)
    ensures ButtonName(id) == Some(b) <==> ButtonId(b) == Some(id)
  {
  }
}

=== FILE: config.dfy ===
/** The mapping configuration: a record of optional fields and the defaults applied when one is absent. */
module MapperConfig {
  import opened Wrappers

  /** A loaded config document; a field is `None` when its key is absent from the document. */
  datatype Config = Config(
    buttonMappings: Option<map<string, string>>,
    triggerThreshold: Option<real>,
    pollingRate: Option<int>,
    autoRestart: Option<bool>)

  /** The mapping written to a fresh config file. */
  const DefaultMappings: map<string, string> :=
    map["A" := "space",
        "B" := "escape",
        "X" := "return",
        "Y" := "tab",
        "START" := "f11",
        "SELECT" := "f12",
        "LEFT_TRIGGER" := "ctrl",
        "RIGHT_TRIGGER" := "shift",
        "DPAD_UP" := "up",
        "DPAD_DOWN" := "down",
        "DPAD_LEFT" := "left",
        "DPAD_RIGHT" := "right"]

  /** The config created when no config file exists. */
  const DefaultConfig: Config := Config(Some(DefaultMappings), Some(0.5), Some(60), Some(true))

  /** The `{}` returned for a config file that cannot be parsed. */
  const EmptyConfig: Config := Config(None, None, None, None)

  /** What the config store finds on disk. */
  datatype ConfigFile = Missing | Malformed | Parsed(contents: Config)

  /** `load_config`: the default for a missing file, `{}` for a malformed one, else the parsed document. */
  function LoadConfig(file: ConfigFile): (r: Config)
    ensures file.Missing? ==> r.buttonMappings.Some? && r.triggerThreshold == Some(0.5)
                              && r.pollingRate == Some(60) && r.autoRestart == Some(true)
    ensures file.Malformed? ==> r.buttonMappings.None? && r.triggerThreshold.None?
                                && r.pollingRate.None? && r.autoRestart.None?
    ensures file.Parsed? ==> r == file.contents
  {
    match file
    case Missing => DefaultConfig
    case Malformed => EmptyConfig
    case Parsed(c) => c
  }

  /** The button-to-action mapping, or the empty mapping when the document has none. */
  function Mappings(cfg: Config): (r: map<string, string>)
    ensures cfg.buttonMappings.None? ==> r == map[]
  {
    cfg.buttonMappings.GetOr(map[])
  }

  /** The trigger threshold, or 0.5 when the document has none. */
  function Threshold(cfg: Config): (r: real)
    ensures cfg.triggerThreshold.None? ==> r == 0.5
  {
    cfg.triggerThreshold.GetOr(0.5)
  }

  /** The polling rate in Hz, or 60 when the document has none. */
  function PollingRate(cfg: Config): (r: int)
    ensures cfg.pollingRate.None? ==> r == 60
  {
    cfg.pollingRate.GetOr(60)
  }

  /** Whether to keep retrying when no gamepad is found; true when the document does not say. */
  function AutoRestart(cfg: Config): (r: bool)
    ensures cfg.autoRestart.None? ==> r
  {
    cfg.autoRestart.GetOr(true)
  }

  /** The fall-back values for absent keys agree with the default file, so a missing file
      and a malformed one behave alike except that the malformed one maps no button. */
  lemma AbsentKeysMatchDefaultFile(file: ConfigFile)
    requires !file.Parsed?
    ensures Threshold(LoadConfig(file)) == 0.5
    ensures PollingRate(LoadConfig(file)) == 60
    ensures AutoRestart(LoadConfig(file))
    ensures file.Malformed? <==> Mappings(LoadConfig(file)) == map[]
  {
    if file.Missing? {
      assert "A" in Mappings(LoadConfig(file));
    }
  }
}

=== FILE: controller.dfy ===
/** The decisions of `start` and `run_gamepad_loop`: a small lifecycle state machine around the translator. */
module Controller {
  import opened Wrappers
  import opened Keys
  import opened MapperConfig
  import opened Dispatcher
  import opened Translator
  import TranslatorProperties
  import opened Discovery

  /** `Discovering` is the detect/wait loop of `start`; `Active` is the event loop of
      `run_gamepad_loop` for one device index; `Stopped` is after the loop has been left. */
  datatype Phase = Stopped | Discovering | Active(device: nat)

  /** The controller: its phase and the translator state of the current session. */
  datatype Mapper = Mapper(phase: Phase, session: State)

  /** What the environment hands the controller: the names of the devices connected at one
      detection attempt, one polled batch of raw events, or an interrupt. */
  datatype Input = Detected(devices: seq<string>) | Events(batch: seq<RawEvent>) | Interrupt

  /** The controller after an input and the keys pressed meanwhile, in order. */
  datatype Outcome = Outcome(mapper: Mapper, pressed: seq<KeyPress>)

  /** The controller right after `start` sets `running`. */
  const Started: Mapper := Mapper(Discovering, Initial)

  /** The phase after one detection attempt. A found index enters the event loop, except index 0,
      which `if not self.gamepad` treats as absent, so the loop returns at once and detection repeats.
      A failed attempt retries after the back-off unless `auto_restart` is false. */
  function AfterDetection(cfg: Config, found: Option<nat>): (r: Phase)
    ensures r.Stopped? <==> found.None? && !AutoRestart(cfg)
    ensures r.Active? <==> found.Some? && found.value != 0
    ensures r.Active? ==> r.device == found.value
  {
    match found
    case Some(i) => if i == 0 then Discovering else Active(i)
    case None => if AutoRestart(cfg) then Discovering else Stopped
  }

  /** One input to the controller. Inputs a phase does not consume leave it unchanged. */
  function ControllerStep(cfg: Config, m: Mapper, inp: Input): (r: Outcome)
    // stopping is terminal
    ensures m.phase.Stopped? ==> r.mapper.phase.Stopped? && r.pressed == []
    ensures inp.Interrupt? ==> r.mapper.phase.Stopped? && r.pressed == []
    // only a polled batch during a session presses keys
    ensures r.pressed != [] ==> m.phase.Active? && inp.Events?
    // a session is left only by an interrupt: device loss is not detected
    ensures m.phase.Active? && !inp.Interrupt? ==> r.mapper.phase == m.phase
    // every session starts from the fresh state
    ensures r.mapper.phase.Active? && !m.phase.Active? ==> r.mapper.session == Initial
  {
    match inp
    case Interrupt => Outcome(Mapper(Stopped, m.session), [])
    case Detected(devices) =>
      if m.phase.Discovering? then
        var phase := AfterDetection(cfg, DetectGamepad(devices));
        Outcome(Mapper(phase, if phase.Active? then Initial else m.session), [])
      else Outcome(m, [])
    case Events(batch) =>
      if m.phase.Active? then
        var r := Run(cfg, m.session, batch);
        Outcome(Mapper(m.phase, r.state), DispatchAll(cfg, r.fired))
      else Outcome(m, [])
  }

  /** The controller folded over a sequence of inputs. */
  function ControllerRun(cfg: Config, m: Mapper, inputs: seq<Input>): (r: Outcome)
    ensures m.phase.Stopped? ==> r.mapper.phase.Stopped? && r.pressed == []
    decreases |inputs|
  {
    if inputs == [] then Outcome(m, [])
    else
      var head := ControllerStep(cfg, m, inputs[0]);
      var tail := ControllerRun(cfg, head.mapper, inputs[1..]);
      Outcome(tail.mapper, head.pressed + tail.pressed)
  }

  /** The raw events of the polled batches among `inputs`, in order. */
  function Polled(inputs: seq<Input>): seq<RawEvent>
    decreases |inputs|
  {
    if inputs == [] then []
    else (if inputs[0].Events? then inputs[0].batch else []) + Polled(inputs[1..])
  }

  predicate NoInterrupt(inputs: seq<Input>) {
    forall i :: 0 <= i < |inputs| ==> !inputs[i].Interrupt?
  }

  /** A detection that finds no gamepad name stops the controller exactly when `auto_restart` is
      false; absent, it is true. */
  lemma FailedDetectionStopsIffNoRestart(cfg: Config, session: State, devices: seq<string>)
    requires forall j :: 0 <= j < |devices| ==> !IsGamepadName(devices[j])
    ensures var after := ControllerStep(cfg, Mapper(Discovering, session), Detected(devices));
            after.mapper.phase.Stopped? <==> cfg.autoRestart == Some(false)
  {
  }

  /** With `auto_restart` on, only an interrupt ever stops the controller. */
  lemma {:induction false} RestartingNeverStops(cfg: Config, m: Mapper, inputs: seq<Input>)
    requires AutoRestart(cfg)
    requires !m.phase.Stopped?
    requires NoInterrupt(inputs)
    ensures !ControllerRun(cfg, m, inputs).mapper.phase.Stopped?
    decreases |inputs|
  {
    if inputs != [] {
      RestartingNeverStops(cfg, ControllerStep(cfg, m, inputs[0]).mapper, inputs[1..]);
    }
  }

  /** Device lists that offer no gamepad beyond index 0: either none of the names is a gamepad
      name, or the first device is one. */
  predicate NothingServiceable(devices: seq<string>) {
    (|devices| > 0 && IsGamepadName(devices[0]))
    || forall j :: 0 <= j < |devices| ==> !IsGamepadName(devices[j])
  }

  /** When the first gamepad-named device is always at index 0 (or there is none), nothing is
      ever serviced: the device is re-detected forever and no key is pressed. */
  lemma {:induction false} IndexZeroNeverServiced(cfg: Config, m: Mapper, inputs: seq<Input>)
    requires !m.phase.Active?
    requires forall i :: 0 <= i < |inputs| ==> inputs[i].Detected? ==> NothingServiceable(inputs[i].devices)
    ensures !ControllerRun(cfg, m, inputs).mapper.phase.Active?
    ensures ControllerRun(cfg, m, inputs).pressed == []
    decreases |inputs|
  {
    if inputs != [] {
      IndexZeroNeverServiced(cfg, ControllerStep(cfg, m, inputs[0]).mapper, inputs[1..]);
    }
  }

  /** During a session the controller is the translator folded over every polled event, dispatched. */
  lemma {:induction false} ActiveRunIsTranslation(cfg: Config, device: nat, s: State, inputs: seq<Input>)
    requires NoInterrupt(inputs)
    ensures ControllerRun(cfg, Mapper(Active(device), s), inputs)
              == Outcome(Mapper(Active(device), Run(cfg, s, Polled(inputs)).state),
                         DispatchAll(cfg, Run(cfg, s, Polled(inputs)).fired))
    decreases |inputs|
  {
    if inputs != [] {
      var m := Mapper(Active(device), s);
      var head := ControllerStep(cfg, m, inputs[0]);
      var rest := inputs[1..];
      ActiveRunIsTranslation(cfg, device, head.mapper.session, rest);
      var batch := if inputs[0].Events? then inputs[0].batch else [];
      assert Polled(inputs) == batch + Polled(rest);
      TranslatorProperties.RunAppend(cfg, s, batch, Polled(rest));
      var first := Run(cfg, s, batch);
      assert head.mapper.session == first.state;
      assert head.pressed == DispatchAll(cfg, first.fired);
      DispatchAllAppend(cfg, first.fired, Run(cfg, first.state, Polled(rest)).fired);
    }
  }

  /** Connecting to a nonzero index starts a fresh session: what is pressed afterwards is exactly the
      session translation of the events polled, whatever came before. */
  lemma ConnectStartsFreshSession(cfg: Config, session: State, devices: seq<string>, inputs: seq<Input>)
    requires NoInterrupt(inputs)
    ensures DetectGamepad(devices).Some? && DetectGamepad(devices).value != 0 ==>
              ControllerRun(cfg, Mapper(Discovering, session), [Detected(devices)] + inputs).pressed
                == Session(cfg, Polled(inputs))
  {
    var found := DetectGamepad(devices);
    if found.Some? && found.value != 0 {
      var all := [Detected(devices)] + inputs;
      assert all[0] == Detected(devices);
      assert all[1..] == inputs;
      ActiveRunIsTranslation(cfg, found.value, Initial, inputs);
    }
  }

  /** The discovery example: no device found and `auto_restart` false stops without a retry. */
  lemma NoDeviceNoRestartExample()
    ensures var cfg := Config(None, None, None, Some(false));
            ControllerRun(cfg, Started, [Detected([])]).mapper.phase == Stopped
  {
  }

  /** A lone controller sits at index 0, so it is detected again and again and never serviced. */
  lemma LoneControllerNeverServiced(cfg: Config, session: State)
    ensures ControllerStep(cfg, Mapper(Discovering, session), Detected(["Xbox Wireless Controller"]))
              == Outcome(Mapper(Discovering, session), [])
  {
    NameExamples();
  }
}

=== FILE: discovery.dfy ===
/** The selection rule of `detect_gamepad` over the names of the connected devices. */
module Discovery {
  import opened Wrappers

  /** The substrings that mark a device name as a gamepad. */
  const Keywords: seq<string> := ["gamepad", "controller", "xbox", "playstation", "nintendo"]

  /** ASCII lower-casing of one character. */
  function LowerChar(c: char): char {
    if 'A' <= c <= 'Z' then (c as int + 32) as char else c
  }

  /** ASCII lower-casing of a name: capitals become their small letters, everything else is kept. */
  function ToLower(s: string): (r: string)
    ensures |r| == |s|
    ensures forall i :: 0 <= i < |r| ==> !('A' <= r[i] <= 'Z')
    ensures forall i :: 0 <= i < |s| && !('A' <= s[i] <= 'Z') ==> r[i] == s[i]
    ensures forall i :: 0 <= i < |s| && 'A' <= s[i] <= 'Z' ==> 'a' <= r[i] <= 'z' && r[i] as int - s[i] as int == 32
  {
    seq(|s|, i requires 0 <= i < |s| => LowerChar(s[i]))
  }

  /** Lower-casing twice is lower-casing once. */
  lemma ToLowerIdempotent(s: string)
    ensures ToLower(ToLower(s)) == ToLower(s)
  {
  }

  predicate OccursAt(s: string, k: string, i: int) {
    0 <= i && i + |k| <= |s| && s[i..i + |k|] == k
  }

  /** Python's `k in s` on strings: `k` occurs somewhere in `s`. */
  predicate Contains(s: string, k: string) {
    exists i | 0 <= i <= |s| - |k| :: OccursAt(s, k, i)
  }

  /** A name, lower-cased, contains one of the gamepad keywords. */
  predicate IsGamepadName(name: string) {
    exists k | k in Keywords :: Contains(ToLower(name), k)
  }

  /** Lower-casing is idempotent, so matching ignores the case of the name entirely. */
  lemma MatchIgnoresCase(name: string)
    ensures IsGamepadName(ToLower(name)) <==> IsGamepadName(name)
  {
    ToLowerIdempotent(name);
  }

  /** The least index from `i` on whose name is a gamepad name, or `None`. */
  function FirstMatchFrom(names: seq<string>, i: nat): (r: Option<nat>)
    requires i <= |names|
    ensures r.Some? ==> i <= r.value < |names| && IsGamepadName(names[r.value])
    ensures r.Some? ==> forall j :: i <= j < r.value ==> !IsGamepadName(names[j])
    ensures r.None? <==> forall j :: i <= j < |names| ==> !IsGamepadName(names[j])
    decreases |names| - i
  {
    if i == |names| then None
    else if IsGamepadName(names[i]) then Some(i)
    else FirstMatchFrom(names, i + 1)
  }

  /** `detect_gamepad` over the names of the connected devices: the least index whose name is a
      gamepad name, or `None`. */
  function DetectGamepad(names: seq<string>): (r: Option<nat>)
    ensures r.Some? ==> r.value < |names| && IsGamepadName(names[r.value])
    ensures r.Some? ==> forall j :: 0 <= j < r.value ==> !IsGamepadName(names[j])
    ensures r.None? <==> forall j :: 0 <= j < |names| ==> !IsGamepadName(names[j])
  {
    if |names| > 0 then FirstMatchFrom(names, 0) else None
  }

  /** Two device names: a controller is recognised whatever its case, a mouse is not. */
  lemma NameExamples()
    ensures IsGamepadName("Xbox Wireless Controller")
    ensures !IsGamepadName("Mouse")
  {
    var lower := ToLower("Xbox Wireless Controller");
    assert lower[0..4] == "xbox";
    assert OccursAt(lower, "xbox", 0);
    assert Keywords[2] == "xbox";
    assert Contains(lower, Keywords[2]);
    forall k | k in Keywords
      ensures !Contains(ToLower("Mouse"), k)
    {
      assert |k| >= 4;
      var m := ToLower("Mouse");
      assert m == "mouse";
      forall i | 0 <= i <= |m| - |k|
        ensures !OccursAt(m, k, i)
      {
        assert m[i] != k[0];
      }
    }
  }
}

=== FILE: dispatcher.dfy ===
/** The lookup in `handle_button_press`: an emitted logical name to the key it presses, if mapped. */
module Dispatcher {
  import opened Wrappers
  import opened Buttons
  import opened Keys
  import opened MapperConfig

  /** The action string mapped to `b`, when the document has `button_mappings` and `b`'s name is one of its keys. */
  function Lookup(cfg: Config, b: LogicalButton): (r: Option<string>)
    ensures r.None? <==> cfg.buttonMappings.None? || Name(b) !in cfg.buttonMappings.value
    ensures r.Some? ==> r.value == cfg.buttonMappings.value[Name(b)]
  {
    var mappings := Mappings(cfg);
    if Name(b) in mappings then Some(mappings[Name(b)]) else None
  }

  /** `handle_button_press`: the key pressed for an emitted name, `None` when it is unmapped. */
  function Dispatch(cfg: Config, b: LogicalButton): (r: Option<KeyPress>)
    ensures r.Some? <==> Lookup(cfg, b).Some?
    // a named key is pressed exactly when the mapped string is that key's table name
    ensures forall k :: r == Some(Named(k)) <==> Lookup(cfg, b) == Some(KeyName(k))
    // a mapped string outside the key table is handed on as literal text
    ensures Lookup(cfg, b).Some? && Lookup(cfg, b).value !in KeyMapping ==> r == Some(Literal(Lookup(cfg, b).value))
    // a mapped "space" types a single space character
    ensures Lookup(cfg, b) == Some("space") ==> r == Some(Literal(" "))
  {
    match Lookup(cfg, b)
    case Some(action) => Some(KeyFromString(action))
    case None => None
  }

  /** The keys pressed, in order, for a sequence of emitted names. */
  function DispatchAll(cfg: Config, names: seq<LogicalButton>): (r: seq<KeyPress>)
    ensures |r| <= |names|
  {
    if names == [] then []
    else
      var rest := DispatchAll(cfg, names[1..]);
      match Dispatch(cfg, names[0])
      case Some(k) => [k] + rest
      case None => rest
  }

  /** A single emitted name presses its dispatched key, or nothing when it is unmapped. */
  lemma DispatchOne(cfg: Config, b: LogicalButton)
    ensures DispatchAll(cfg, [b]) == (if Dispatch(cfg, b).Some? then [Dispatch(cfg, b).value] else [])
  {
  }

  /** Dispatching a concatenation dispatches each part in turn. */
  lemma {:induction false} DispatchAllAppend(cfg: Config, a: seq<LogicalButton>, b: seq<LogicalButton>)
    ensures DispatchAll(cfg, a + b) == DispatchAll(cfg, a) + DispatchAll(cfg, b)
  {
    if a == [] {
      assert a + b == b;
    } else {
      assert (a + b)[0] == a[0];
      assert (a + b)[1..] == a[1..] + b;
      DispatchAllAppend(cfg, a[1..], b);
    }
  }

  /** Nothing is pressed exactly when no emitted name is a key of `button_mappings`. */
  lemma {:induction false} NothingPressedIffAllUnmapped(cfg: Config, names: seq<LogicalButton>)
    ensures DispatchAll(cfg, names) == [] <==> forall i :: 0 <= i < |names| ==> Name(names[i]) !in Mappings(cfg)
  {
    if names != [] {
      NothingPressedIffAllUnmapped(cfg, names[1..]);
      assert forall i :: 1 <= i < |names| ==> names[i] == names[1..][i - 1];
    }
  }

  /** Without a `button_mappings` key (the `{}` of a malformed file included) nothing is ever pressed. */
  lemma NoMappingsPressNothing(cfg: Config, names: seq<LogicalButton>)
    requires cfg.buttonMappings.None?
    ensures DispatchAll(cfg, names) == []
  {
  }

  /** The config created for a missing file maps every logical button except the two stick clicks. */
  lemma DefaultMapsAllButSticks(b: LogicalButton)
    ensures Dispatch(LoadConfig(Missing), b).Some? <==> !b.LeftStick? && !b.RightStick?
  {
  }

  /** Under the config created for a missing file, A types a literal space and every other mapped
      button presses a named key. */
  lemma DefaultKeys(b: LogicalButton)
    ensures Dispatch(LoadConfig(Missing), b) == Some(Literal(" ")) <==> b == A
    ensures Dispatch(LoadConfig(Missing), b).Some? && b != A ==> Dispatch(LoadConfig(Missing), b).value.Named?
  {
  }
}

=== FILE: keys.dfy ===
/** Resolution of an action string to the key the injector presses (`get_key_from_string`). */
module Keys {

  /** The named control keys the fixed table can produce. */
  datatype SpecialKey =
    | Enter | Esc | Tab | F11 | F12 | Ctrl | Shift | Alt
    | Up | Down | Left | Right | Home | End | PageUp | PageDown
    | Insert | Delete | Backspace

  /** What the injector is asked to press: a named key, or literal text handed to the injector. */
  datatype KeyPress = Named(key: SpecialKey) | Literal(text: string)

  /** The twenty fixed action strings; "space" is the one that resolves to a literal character. */
  const KeyMapping: map<string, KeyPress> :=
    map["space" := Literal(" "),
        "return" := Named(Enter),
        "escape" := Named(Esc),
        "tab" := Named(Tab),
        "f11" := Named(F11),
        "f12" := Named(F12),
        "ctrl" := Named(Ctrl),
        "shift" := Named(Shift),
        "alt" := Named(Alt),
        "up" := Named(Up),
        "down" := Named(Down),
        "left" := Named(Left),
        "right" := Named(Right),
        "home" := Named(Home),
        "end" := Named(End),
        "page_up" := Named(PageUp),
        "page_down" := Named(PageDown),
        "insert" := Named(Insert),
        "delete" := Named(Delete),
        "backspace" := Named(Backspace)]

  /** `get_key_from_string`: the table entry, or the string itself passed through as literal text. */
  function KeyFromString(s: string): (r: KeyPress)
    ensures r.Literal? ==> r.text == s || (s == "space" && r.text == " ")
    ensures s !in KeyMapping ==> r == Literal(s)
  {
    if s in KeyMapping then KeyMapping[s] else Literal(s)
  }

  /** The action string that selects a named key. */
  function KeyName(k: SpecialKey): string {
    match k
    case Enter => "return"
    case Esc => "escape"
    case Tab => "tab"
    case F11 => "f11"
    case F12 => "f12"
    case Ctrl => "ctrl"
    case Shift => "shift"
    case Alt => "alt"
    case Up => "up"
    case Down => "down"
    case Left => "left"
    case Right => "right"
    case Home => "home"
    case End => "end"
    case PageUp => "page_up"
    case PageDown => "page_down"
    case Insert => "insert"
    case Delete => "delete"
    case Backspace => "backspace"
  }

  /** A string resolves to a named key exactly when it is that key's table name. */
  lemma NamedKeyRoundTrip(s: string, k: SpecialKey)
    ensures KeyFromString(s) == Named(k) <==> s == KeyName(k)
  {
  }

  /** Exactly "space" and a literal " " both type a single space. */
  lemma SpaceSpellings(s: string)
    ensures KeyFromString(s) == Literal(" ") <==> s == "space" || s == " "
  {
  }
}

=== FILE: translator.dfy ===
/** The event translator of `run_gamepad_loop`, pulled out as a pure step function over raw events. */
module Translator {
  import opened Wrappers
  import opened Buttons
  import opened Keys
  import opened MapperConfig
  import opened Dispatcher

  /** A raw event from the device provider; `OtherEvent` is any event type the loop does not handle. */
  datatype RawEvent =
    | ButtonDown(button: int)
    | ButtonUp(button: int)
    | AxisMotion(axis: int, value: real)
    | OtherEvent

  /** Per-session translator state: `button_states` (only its keys are ever consulted) and the two trigger flags. */
  datatype State = State(buttons: map<LogicalButton, bool>, leftTrigger: bool, rightTrigger: bool)

  /** The state every `run_gamepad_loop` entry starts from. */
  const Initial: State := State(map[], false, false)

  /** The new state and the names emitted, in order. */
  datatype StepResult = StepResult(state: State, fired: seq<LogicalButton>)

  /** The fixed D-pad threshold, independent of the configured trigger threshold. */
  const DpadThreshold: real := 0.5

  function Abs(v: real): real {
    if v < 0.0 then -v else v
  }

  /** The raw axis of the left (2) or right (3) trigger. */
  function TriggerAxis(left: bool): int {
    if left then 2 else 3
  }

  /** The name a trigger axis emits. */
  function TriggerButton(left: bool): LogicalButton {
    if left then LeftTrigger else RightTrigger
  }

  function TriggerFlag(st: State, left: bool): bool {
    if left then st.leftTrigger else st.rightTrigger
  }

  function SetTrigger(st: State, left: bool, flag: bool): (r: State)
    ensures TriggerFlag(r, left) == flag && TriggerFlag(r, !left) == TriggerFlag(st, !left)
    ensures r.buttons == st.buttons
  {
    if left then st.(leftTrigger := flag) else st.(rightTrigger := flag)
  }

  /** A trigger axis event: fire on the rising edge past the threshold, re-arm at or below it. */
  function TriggerStep(threshold: real, st: State, left: bool, v: real): (r: StepResult)
    ensures r.state.buttons == st.buttons
    ensures TriggerFlag(r.state, !left) == TriggerFlag(st, !left)
    ensures TriggerFlag(r.state, left) <==> Abs(v) > threshold
    ensures r.fired == [TriggerButton(left)] <==> Abs(v) > threshold && !TriggerFlag(st, left)
    ensures r.fired == [] || r.fired == [TriggerButton(left)]
  {
    if Abs(v) > threshold then
      if !TriggerFlag(st, left) then StepResult(SetTrigger(st, left, true), [TriggerButton(left)])
      else StepResult(st, [])
    else StepResult(SetTrigger(st, left, false), [])
  }

  /** A D-pad axis event (axis 0 horizontal, axis 1 vertical); stateless. */
  function DpadFire(axis: int, v: real): seq<LogicalButton> {
    if Abs(v) > DpadThreshold then
      if axis == 0 then
        if v > DpadThreshold then [DpadRight]
        else if v < -DpadThreshold then [DpadLeft]
        else []
      else if axis == 1 then
        if v > DpadThreshold then [DpadDown]
        else if v < -DpadThreshold then [DpadUp]
        else []
      else []
    else []
  }

  /** One iteration of the event loop's body. */
  function Step(cfg: Config, st: State, ev: RawEvent): (r: StepResult)
    ensures |r.fired| <= 1
    // button_states only ever gains keys
    ensures st.buttons.Keys <= r.state.buttons.Keys
    // only button-down events fire and only button events touch button_states
    ensures !ev.ButtonDown? && !ev.AxisMotion? ==> r.fired == []
    ensures !ev.ButtonDown? && !ev.ButtonUp? ==> r.state.buttons == st.buttons
    // only the two trigger axes touch the trigger flags
    ensures !(ev.AxisMotion? && (ev.axis == 2 || ev.axis == 3)) ==>
              r.state.leftTrigger == st.leftTrigger && r.state.rightTrigger == st.rightTrigger
    // an id outside the table changes nothing
    ensures (ev.ButtonDown? || ev.ButtonUp?) && ButtonName(ev.button).None? ==> r == StepResult(st, [])
    // a button-down fires its name exactly when the name is not yet a key, and records it
    ensures ev.ButtonDown? && ButtonName(ev.button).Some? ==>
              var b := ButtonName(ev.button).value;
              b in r.state.buttons && (r.fired != [] <==> b !in st.buttons) && (r.fired != [] ==> r.fired == [b])
    // a button-up records its name without firing
    ensures ev.ButtonUp? && ButtonName(ev.button).Some? ==> ButtonName(ev.button).value in r.state.buttons
  {
    match ev
    case ButtonDown(id) =>
      (match ButtonName(id)
       case Some(b) =>
         if b !in st.buttons then StepResult(st.(buttons := st.buttons[b := true]), [b])
         else StepResult(st, [])
       case None => StepResult(st, []))
    case ButtonUp(id) =>
      (match ButtonName(id)
       case Some(b) => StepResult(st.(buttons := st.buttons[b := false]), [])
       case None => StepResult(st, []))
    case AxisMotion(axis, v) =>
      if axis == 2 || axis == 3 then TriggerStep(Threshold(cfg), st, axis == 2, v)
      else if axis == 0 || axis == 1 then StepResult(st, DpadFire(axis, v))
      else StepResult(st, [])
    case OtherEvent => StepResult(st, [])
  }

  /** The step folded over an event sequence: the final state and every name emitted, in order. */
  function Run(cfg: Config, st: State, evs: seq<RawEvent>): (r: StepResult)
    ensures st.buttons.Keys <= r.state.buttons.Keys
    ensures |r.fired| <= |evs|
    decreases |evs|
  {
    if evs == [] then StepResult(st, [])
    else
      var head := Step(cfg, st, evs[0]);
      var tail := Run(cfg, head.state, evs[1..]);
      StepResult(tail.state, head.fired + tail.fired)
  }

  /** The keys pressed over one session, from the fresh state. */
  function Session(cfg: Config, evs: seq<RawEvent>): seq<KeyPress> {
    DispatchAll(cfg, Run(cfg, Initial, evs).fired)
  }
}

=== FILE: translator_properties.dfy ===
/** Per-session behaviour of the translator, stated over folds of the step function. */
module TranslatorProperties {
  import opened Wrappers
  import opened Buttons
  import opened Keys
  import opened MapperConfig
  import opened Dispatcher
  import opened Translator

  /** Running a concatenation runs the second part from where the first part left off. */
  lemma {:induction false} RunAppend(cfg: Config, st: State, a: seq<RawEvent>, b: seq<RawEvent>)
    ensures Run(cfg, st, a + b).state == Run(cfg, Run(cfg, st, a).state, b).state
    ensures Run(cfg, st, a + b).fired == Run(cfg, st, a).fired + Run(cfg, Run(cfg, st, a).state, b).fired
    decreases |a|
  {
    if a == [] {
      assert a + b == b;
    } else {
      assert (a + b)[0] == a[0];
      assert (a + b)[1..] == a[1..] + b;
      RunAppend(cfg, Step(cfg, st, a[0]).state, a[1..], b);
    }
  }

  /** Whether the first button event naming `b` is a press (`Some(true)`), a release (`Some(false)`),
      or there is none. */
  function FirstEdge(evs: seq<RawEvent>, b: LogicalButton): Option<bool> {
    if evs == [] then None
    else
      match evs[0]
      case ButtonDown(id) => if ButtonName(id) == Some(b) then Some(true) else FirstEdge(evs[1..], b)
      case ButtonUp(id) => if ButtonName(id) == Some(b) then Some(false) else FirstEdge(evs[1..], b)
      case _ => FirstEdge(evs[1..], b)
  }

  /** A name only raw buttons emit: neither a trigger axis nor a D-pad axis can produce it. */
  predicate ButtonOnly(b: LogicalButton) {
    b in {A, B, X, Y, Select, Start, LeftStick, RightStick}
  }

  /** A name becomes a key of `button_states` exactly at the first press or release naming it. */
  lemma {:induction false} KeyedIffTouched(cfg: Config, st: State, evs: seq<RawEvent>, b: LogicalButton)
    ensures b in Run(cfg, st, evs).state.buttons <==> b in st.buttons || FirstEdge(evs, b).Some?
    decreases |evs|
  {
    if evs != [] {
      KeyedIffTouched(cfg, Step(cfg, st, evs[0]).state, evs[1..], b);
    }
  }

  /** How many times `b` occurs in `s`. */
  function Count(s: seq<LogicalButton>, b: LogicalButton): nat {
    if s == [] then 0 else (if s[0] == b then 1 else 0) + Count(s[1..], b)
  }

  lemma {:induction false} CountAppend(s: seq<LogicalButton>, t: seq<LogicalButton>, b: LogicalButton)
    ensures Count(s + t, b) == Count(s, b) + Count(t, b)
    decreases |s|
  {
    if s == [] {
      assert s + t == t;
    } else {
      assert (s + t)[0] == s[0];
      assert (s + t)[1..] == s[1..] + t;
      CountAppend(s[1..], t, b);
    }
  }

  /** Whether `ev` presses or releases a raw button whose name is `b`. */
  predicate Names(ev: RawEvent, b: LogicalButton) {
    (ev.ButtonDown? || ev.ButtonUp?) && ButtonName(ev.button) == Some(b)
  }

  /** One event fires a raw-button name exactly when it presses that button for the first time. */
  lemma StepFiresOnlyOnFirstPress(cfg: Config, st: State, ev: RawEvent, b: LogicalButton)
    requires ButtonOnly(b)
    ensures Count(Step(cfg, st, ev).fired, b) == (if b !in st.buttons && ev.ButtonDown? && Names(ev, b) then 1 else 0)
    ensures b in Step(cfg, st, ev).state.buttons <==> b in st.buttons || Names(ev, b)
  {
  }

  /** A raw-button name fires at most once per session: exactly when it was not yet a key and the
      first event naming it is a press. A release, or any earlier press, silences it for good. */
  lemma {:induction false} ButtonFiresOnlyOnFirstPress(cfg: Config, st: State, evs: seq<RawEvent>, b: LogicalButton)
    requires ButtonOnly(b)
    ensures Count(Run(cfg, st, evs).fired, b) ==
              (if b !in st.buttons && FirstEdge(evs, b) == Some(true) then 1 else 0)
    decreases |evs|
  {
    if evs != [] {
      var head := Step(cfg, st, evs[0]);
      var tail := Run(cfg, head.state, evs[1..]);
      StepFiresOnlyOnFirstPress(cfg, st, evs[0], b);
      ButtonFiresOnlyOnFirstPress(cfg, head.state, evs[1..], b);
      assert Run(cfg, st, evs).fired == head.fired + tail.fired;
      CountAppend(head.fired, tail.fired, b);
      assert FirstEdge(evs, b) == if Names(evs[0], b) then Some(evs[0].ButtonDown?) else FirstEdge(evs[1..], b);
    }
  }

  /** For every raw button (the two trigger buttons included), once a press or release of it has
      arrived, any later press or release of it fires nothing, whatever events come in between. */
  lemma LaterEdgeIsSilent(cfg: Config, st: State, evs: seq<RawEvent>, b: LogicalButton, i: nat, j: nat)
    requires i < j < |evs|
    requires Names(evs[i], b) && Names(evs[j], b)
    ensures Step(cfg, Run(cfg, st, evs[..j]).state, evs[j]).fired == []
  {
    var before := Run(cfg, st, evs[..i]).state;
    var touched := Step(cfg, before, evs[i]).state;
    assert b in touched.buttons;
    assert Run(cfg, before, [evs[i]]).state == touched;
    assert evs[..j] == evs[..i] + ([evs[i]] + evs[i + 1..j]);
    RunAppend(cfg, st, evs[..i], [evs[i]] + evs[i + 1..j]);
    RunAppend(cfg, before, [evs[i]], evs[i + 1..j]);
  }

  /** The down/down/up/down example: with A mapped to "space", exactly one space is typed. */
  lemma DebounceExample()
    ensures var cfg := Config(Some(map["A" := "space"]), Some(0.5), None, None);
            Session(cfg, [ButtonDown(0), ButtonDown(0), ButtonUp(0), ButtonDown(0)]) == [Literal(" ")]
  {
  }

  /** Once `b` is a key, a later press or release of its button fires nothing, whatever events
      (other buttons, axes, anything) come before it. */
  lemma KeyedButtonStaysSilent(cfg: Config, st: State, evs: seq<RawEvent>, b: LogicalButton, j: nat)
    requires b in st.buttons
    requires j < |evs| && Names(evs[j], b)
    ensures Step(cfg, Run(cfg, st, evs[..j]).state, evs[j]).fired == []
  {
  }

  /** A `trigger_threshold` present in the document is the threshold the trigger axes compare against. */
  lemma ConfiguredThresholdGovernsTriggers(cfg: Config, st: State, left: bool, v: real, t: real)
    requires cfg.triggerThreshold == Some(t)
    ensures var r := Step(cfg, st, AxisMotion(TriggerAxis(left), v));
            r.fired == [TriggerButton(left)] <==> Abs(v) > t && !TriggerFlag(st, left)
    ensures TriggerFlag(Step(cfg, st, AxisMotion(TriggerAxis(left), v)).state, left) <==> Abs(v) > t
  {
  }

  /** An event held past the threshold on trigger axis `TriggerAxis(left)`. */
  predicate TriggerHeld(cfg: Config, left: bool, ev: RawEvent) {
    ev.AxisMotion? && ev.axis == TriggerAxis(left) && Abs(ev.value) > Threshold(cfg)
  }

  /** Sustained above-threshold values on a trigger axis fire that trigger once (none if it was
      already past the threshold), leave it flagged, and never touch `button_states`. */
  lemma {:induction false} SustainedTriggerFiresOnce(cfg: Config, st: State, evs: seq<RawEvent>, left: bool)
    requires evs != []
    requires forall i :: 0 <= i < |evs| ==> TriggerHeld(cfg, left, evs[i])
    ensures Run(cfg, st, evs).fired == (if TriggerFlag(st, left) then [] else [TriggerButton(left)])
    ensures TriggerFlag(Run(cfg, st, evs).state, left)
    ensures Run(cfg, st, evs).state.buttons == st.buttons
    decreases |evs|
  {
    var head := Step(cfg, st, evs[0]);
    assert TriggerFlag(head.state, left);
    if |evs| > 1 {
      SustainedTriggerFiresOnce(cfg, head.state, evs[1..], left);
    }
  }

  /** The trigger example: threshold 0.5 and left-trigger values 0.6, 0.7, 0.3, 0.6 fire LEFT_TRIGGER twice. */
  lemma TriggerExample()
    ensures var cfg := Config(None, Some(0.5), None, None);
            Run(cfg, Initial, [AxisMotion(2, 0.6), AxisMotion(2, 0.7), AxisMotion(2, 0.3), AxisMotion(2, 0.6)]).fired
              == [LeftTrigger, LeftTrigger]
  {
  }

  /** An event past the fixed D-pad threshold on axis 0 or 1. */
  predicate DpadHeld(ev: RawEvent) {
    ev.AxisMotion? && (ev.axis == 0 || ev.axis == 1) && Abs(ev.value) > 0.5
  }

  /** The direction of a D-pad event, read off the axis and the sign of the value. */
  function DpadDirection(ev: RawEvent): LogicalButton
    requires ev.AxisMotion?
  {
    if ev.axis == 0 then (if ev.value > 0.0 then DpadRight else DpadLeft)
    else (if ev.value > 0.0 then DpadDown else DpadUp)
  }

  /** D-pad axes keep no state: every event past 0.5 fires its direction, however often it repeats. */
  lemma {:induction false} DpadFiresOnEveryEvent(cfg: Config, st: State, evs: seq<RawEvent>)
    requires forall i :: 0 <= i < |evs| ==> DpadHeld(evs[i])
    ensures Run(cfg, st, evs).state == st
    ensures |Run(cfg, st, evs).fired| == |evs|
    ensures forall i :: 0 <= i < |evs| ==> evs[i].AxisMotion? && Run(cfg, st, evs).fired[i] == DpadDirection(evs[i])
    decreases |evs|
  {
    if evs != [] {
      DpadFiresOnEveryEvent(cfg, st, evs[1..]);
      var head := Step(cfg, st, evs[0]);
      assert head == StepResult(st, [DpadDirection(evs[0])]);
      var fired := Run(cfg, st, evs).fired;
      assert fired == [DpadDirection(evs[0])] + Run(cfg, st, evs[1..]).fired;
      forall i | 1 <= i < |evs|
        ensures fired[i] == DpadDirection(evs[i])
      {
        assert evs[i] == evs[1..][i - 1];
      }
    }
  }

  /** The D-pad example: axis-0 values 0.9, 0.9 fire DPAD_RIGHT twice. */
  lemma DpadExample(cfg: Config)
    ensures Run(cfg, Initial, [AxisMotion(0, 0.9), AxisMotion(0, 0.9)]).fired == [DpadRight, DpadRight]
  {
  }

  /** Events the loop ignores: unknown ids, D-pad values inside the dead zone, axes other than 0-3,
      and event types it does not handle. */
  predicate Ignored(ev: RawEvent) {
    match ev
    case ButtonDown(id) => ButtonName(id).None?
    case ButtonUp(id) => ButtonName(id).None?
    case AxisMotion(axis, v) => !(axis == 2 || axis == 3) && ((axis == 0 || axis == 1) ==> Abs(v) <= 0.5)
    case OtherEvent => true
  }

  /** Ignored events change no state and emit nothing. */
  lemma {:induction false} IgnoredEventsChangeNothing(cfg: Config, st: State, evs: seq<RawEvent>)
    requires forall i :: 0 <= i < |evs| ==> Ignored(evs[i])
    ensures Run(cfg, st, evs) == StepResult(st, [])
    decreases |evs|
  {
    if evs != [] {
      IgnoredEventsChangeNothing(cfg, st, evs[1..]);
    }
  }

  /** Translation consults only the keys of `button_states`, never the stored booleans. */
  lemma {:induction false} OnlyKeysMatter(cfg: Config, s: State, t: State, evs: seq<RawEvent>)
    requires s.buttons.Keys == t.buttons.Keys
    requires s.leftTrigger == t.leftTrigger && s.rightTrigger == t.rightTrigger
    ensures Run(cfg, s, evs).fired == Run(cfg, t, evs).fired
    ensures Run(cfg, s, evs).state.buttons.Keys == Run(cfg, t, evs).state.buttons.Keys
    decreases |evs|
  {
    if evs != [] {
      var hs := Step(cfg, s, evs[0]);
      var ht := Step(cfg, t, evs[0]);
      assert hs.fired == ht.fired;
      assert hs.state.buttons.Keys == ht.state.buttons.Keys;
      OnlyKeysMatter(cfg, hs.state, ht.state, evs[1..]);
    }
  }

  /** A session under a config without `button_mappings` (the malformed-file `{}` included) presses nothing. */
  lemma UnmappedSessionPressesNothing(cfg: Config, evs: seq<RawEvent>)
    requires cfg.buttonMappings.None?
    ensures Session(cfg, evs) == []
  {
    NoMappingsPressNothing(cfg, Run(cfg, Initial, evs).fired);
  }
}

=== FILE: wrappers.dfy ===
/** Optional values, standing in for Python's `None`-or-value results. */
module Wrappers {

  datatype Option<+T> = None | Some(value: T) {

    /** The wrapped value, or `default` when there is none (Python's `dict.get(key, default)`). */
    function GetOr(default: T): T {
      match this
      case Some(v) => v
      case None => default
    }
  }
}
